=== FILE: README.md ===
# Client app service: route gating, session cookies and page logic in Dafny

This project models the decision logic of a Next.js client for a counseling
service. The application is a thin frontend. Its logic is a few pure rules
and string manipulations:

- **Route gate** (`src/middleware.ts`). `Middleware.Decide` maps a request
  path, the `authToken` cookie, the result of decoding that token and the
  clock to one of four responses: pass through, redirect to `/login` and
  delete the cookie, redirect to `/login`, or redirect to `/home`.
  `Middleware.Gate` first applies the request matcher
  `/((?!api|_next/static|_next/image|favicon.ico|counseling).*)`. The `.`
  in `favicon.ico` is a regular-expression wildcard, and the model keeps it
  that way. `Decide` has no precondition, so it is total, and like every
  Dafny function it is deterministic.
- **Client-side session check** (`src/lib/auth.ts`). `ClientAuth.CookieToken`
  splits `document.cookie` on `"; "`, takes the first row that starts with
  `authToken=`, and returns the second `=`-piece of that row.
  `ClientAuth.IsLoggedIn` and `ClientAuth.GetUser` are written separately, as
  in the source. `ClientAuth.UserIffLoggedIn` proves that they agree, with
  one exception. `getUser` formats `iat * 1000` with `toISOString`, which
  throws a `RangeError` outside the `Date` range of ±8.64e15 ms, and the
  catch then returns `null`. So a signed-in browser whose token's `iat` is
  out of that range gets no user (`ClientAuth.LoggedInWithoutUser`).
- **Server actions** (`src/actions/auth.action.ts`). The HTTP Basic
  credential is `email:password` (section 2 of RFC 7617). `btoa` throws on
  characters above U+00FF, and that check is modelled. Each `Set-Cookie`
  header is sliced and split into a name and a value, and the stored expiry
  is `(exp + 32400) * 1000` ms. The outcomes are modelled in the source's
  order: signup failure, then login failure, then cookies plus a redirect
  to `/home`. Both actions call one shared function,
  `AuthActions.Authenticate`, which differs only in its failure message.
- **Counseling API client** (`src/api/counseling.ts`). It covers the
  `ApiResponse` envelope, the voice request body, the data-URL split, the
  byte-copy loop (`Counseling.CopyCharCodes`, a method with loop invariants)
  and the playback promise. The promise settles on the first media event
  only.
- **Photo-capture page** (`src/app/photo-capture/page.tsx`). The page is a
  state machine over `permission | ready | captured | sending | result`,
  together with the captured image, the result and the camera stream
  reference. Each handler is a pure transition. The browser's answers are
  explicit inputs.

The JavaScript string built-ins (`startsWith`, `indexOf`, `slice`, `split`)
are defined once, in module `JsString`. They follow the ECMAScript
algorithms, with one difference: they count Unicode scalar values where
JavaScript counts UTF-16 code units (see "Left out"). Its
lemmas state `Join(Split(s))` = `s` and `Split(Join(parts))` = `parts`.
Every foreign call is a parameter: a function where the code calls it
with varying arguments (`jwtDecode`, the `btoa` encoding,
`decodeURIComponent`, `atob`), or its result where the call is fixed
(`toDataURL` as the captured data URL, `FileReader` as the reader's result,
`Date.now()` and every `fetch` outcome).

## Model

| member | source | states |
|---|---|---|
| Middleware.Decide | src/middleware.ts:5-57 | Only four responses exist. The cookie is deleted exactly when the path is not bypassed, a non-empty token is present, and the token fails to decode or has reached its expiry. A plain login redirect happens exactly for a protected path without a token. A redirect home happens exactly for a valid token on a public path other than `/`. Every other request passes through, including every bypassed path. |
| Middleware.ExpiryBoundary | src/middleware.ts:36-41 | At `now == exp*1000` the token is already expired: the response redirects to login and deletes the cookie. One millisecond earlier, the cookie is not deleted. |
| Middleware.HomeRedirectsToItself | src/middleware.ts:44-46 | A request for `/home` with a valid token is redirected to `/home` itself. |
| Middleware.Bypassed | src/middleware.ts:12-20 | The middleware itself bypasses the two Next.js asset trees that the matcher also names, `/_next/static` and `/_next/image`. |
| Middleware.MatcherAccepts | src/middleware.ts:69 | The pattern accepts a path exactly when it starts with `/`, has no line terminator, and does not start with `/api`, `/_next/static`, `/_next/image`, `/counseling` or `/favicon?ico`, where `?` is any character except a line terminator. |
| Middleware.Gate | src/middleware.ts:59-71 | Every path the matcher refuses passes through unchanged, including every path under one of the five excluded prefixes. Any other `/` path without a line terminator gets the middleware's answer. The matcher changes that answer only for `/counseling…`, for a dotless `/favicon?ico…` look-alike, for a path containing a line terminator, and for a path that does not start with `/`. |
| Middleware.SignedInCounselingPasses | src/middleware.ts:9-69 | A signed-in visit to `/counseling` passes through. The middleware function alone would redirect it to `/home`, as it does for every public route, but the matcher never calls it. |
| Middleware.CounselingIsNeverGated | src/middleware.ts:69 | Every path that begins with `/counseling` passes through, whatever the cookie holds. |
| Middleware.FaviconWildcard | src/middleware.ts:69 | The matcher also skips `/favicon-ico`, because the `.` in the pattern matches any character. |
| Middleware.ProtectedPathWithoutToken | src/middleware.ts:26-28 | `/photo-capture` without a token reaches the gate and is redirected to `/login`. |
| JsString.IndexOf | src/actions/auth.action.ts:34 | `indexOf` returns -1 or an index at which the whole separator fits within the string. |
| JsString.IndexOfFindsFirst | src/actions/auth.action.ts:34 | `indexOf` returns the first index where the separator occurs. It returns -1 exactly when the separator does not occur anywhere. |
| JsString.Slice | src/actions/auth.action.ts:34 | `slice(start, end)` returns the characters from the clamped start up to the clamped end. Its length is their difference, or 0 when the end does not lie beyond the start. `slice(0, k)` is therefore the prefix of the clamped length. |
| JsString.Split | src/lib/auth.ts:12 | `split` with a non-empty separator always returns at least one piece. |
| JsString.JoinSplit | src/lib/auth.ts:11-12 | Joining the pieces of `split(sep)` with `sep` gives back the original string. |
| JsString.SplitJoin | src/lib/auth.ts:11-12 | Splitting a join of parts that lack the separator's first character gives back exactly those parts. |
| JsString.SplitPiecesAreFree | src/api/counseling.ts:98 | No piece returned by `split(sep)` contains `sep`. |
| ClientAuth.FindRow | src/lib/auth.ts:13 | `find` returns nothing exactly when no row has the prefix. Otherwise it returns the first row that has it. |
| ClientAuth.CookieToken | src/lib/auth.ts:11-14 | A token is found exactly when some `"; "`-row of the cookie string starts with `authToken=`. |
| ClientAuth.TokenIsTextUpToNextEquals | src/lib/auth.ts:11-14 | Take the first `authToken=v` row of a cookie string. The token is `v` up to its first `=`, or all of `v` when `v` has no `=`. A value that contains `=` is therefore truncated. |
| ClientAuth.ValueOfTokenRow | src/lib/auth.ts:14 | The second `=`-piece of `authToken=v` is `v` cut at its first `=`. |
| ClientAuth.SessionClaims | src/lib/auth.ts:11-19 | Claims exist exactly when there is a window, the cookie yields a non-empty token, and that token decodes. They are what the token decodes to, and they come only from a cookie string that has an `authToken=` row. |
| ClientAuth.IsLoggedIn | src/lib/auth.ts:7-24 | The result is true exactly when there is a window, a non-empty token that decodes, and `now < exp*1000`. Without a window it is false. |
| ClientAuth.GetUser | src/lib/auth.ts:27-48 | A user is returned exactly when there is a window, a non-empty token that decodes and has not expired, and an `iat*1000` inside the `Date` range. The email is the claim's `email` when it is present and non-empty, otherwise `sub`. The login time is `iat*1000` ms. |
| ClientAuth.UserIffLoggedIn | src/lib/auth.ts:16-44 | A non-null `getUser` implies `isLoggedIn`. `isLoggedIn`, together with a representable `iat`, implies a non-null `getUser`. |
| ClientAuth.LoggedInWithoutUser | src/lib/auth.ts:43 | A signed-in browser whose `iat*1000` lies beyond the `Date` range gets `null` from `getUser`. |
| ClientAuth.Logout | src/lib/auth.ts:51-58 | In a browser, `logout` writes a cookie whose name-value pair is `authToken=`, an empty value, and navigates to `/login`. Without a window it does nothing. |
| ClientAuth.LogoutPair | src/lib/auth.ts:54 | The name-value pair of the cookie that `logout` writes is `authToken=`. |
| ClientAuth.LogoutPairSignsOut | src/lib/auth.ts:54 | The pair `authToken=` yields the empty token. With it, `isLoggedIn` is false and `getUser` is null. |
| ClientAuth.LogoutSignsOut | src/lib/auth.ts:51-58 | The pair that `logout` writes, read back, yields the empty token. With it, `isLoggedIn` is false and `getUser` is null. |
| ClientAuth.FirstRowWins | src/lib/auth.ts:13 | When no earlier row starts with `authToken=`, `find` returns the first row that does. |
| AuthActions.CredentialsSplitAtFirstColon | src/actions/auth.action.ts:15 | Suppose the user-id has no colon. Then the credential string splits at its first colon back into the user-id and the password, as RFC 7617 requires. |
| AuthActions.Credentials | src/actions/auth.action.ts:15 | The credential string is the user-id, one colon, then the password. |
| AuthActions.Authorization | src/actions/auth.action.ts:15-21 | A header exists exactly when the credential string is Latin-1, which is when `btoa` does not throw. The header is `Basic ` followed by the encoding. |
| AuthActions.CookieInfo | src/actions/auth.action.ts:34 | The pieces, joined again with `=`, are `header.slice(0, header.indexOf(' ') - 1)`. For a header with a space, that is the text up to one character before the first space. For a header without one, it is the text minus its last two characters (see `CookieInfoWithoutSpace`). There is always at least one piece. |
| AuthActions.CookieInfoOfUsualHeader | src/actions/auth.action.ts:34 | For `name=value; attributes`, where name and value have no `=` or space, the pieces are `[name, value]`. |
| AuthActions.CookieInfoWithoutSpace | src/actions/auth.action.ts:34 | For a header with no space, `indexOf` gives -1. The slice then drops the last two characters, or yields `""` for headers shorter than two characters. |
| AuthActions.CookieExpiryMs | src/actions/auth.action.ts:42 | The stored expiry is exactly nine hours (32,400,000 ms) after the token's own expiry instant. |
| AuthActions.StoreOne | src/actions/auth.action.ts:38-43 | A cookie is stored exactly when there is a second piece, that piece decodes as a JWT, and `decodeURIComponent` accepts it. The stored cookie is named by the first piece, holds the URI-decoded second piece, and expires at `(exp + 9*60*60) * 1000`. |
| AuthActions.StoreUntilThrow | src/actions/auth.action.ts:37-44 | Over the per-header outcomes, the loop keeps every stored cookie in order and stops at the first header that throws. It completes exactly when no header threw. |
| AuthActions.StoreCookies | src/actions/auth.action.ts:37-44 | The loop stores one cookie per header, in header order, until the first header that throws. It completes exactly when every header was stored. |
| AuthActions.Authenticate | src/actions/auth.action.ts:15-46 | If `btoa` throws, the action throws before any request. Otherwise it makes exactly one login request. A thrown request throws, and a non-ok reply returns `{500, failure message}`. Either way no cookie is stored. On an ok reply, the cookies are exactly those the loop stored, including those stored before a header that throws. The redirect to `/home` happens exactly when every header stored one. |
| AuthActions.Login | src/actions/auth.action.ts:11-47 | If `btoa` throws, the action rejects with no request and no cookie. Otherwise it sends one login request with `Basic` and the encoded credentials. A non-ok reply returns `{500, message}` and stores no cookie. The redirect to `/home` happens exactly when the reply is ok and every `Set-Cookie` header stores a cookie, and then there is one stored cookie per header, in order. A thrown request throws. When a later header throws, the cookies stored before it stay stored. |
| AuthActions.Signup | src/actions/auth.action.ts:49-100 | The registration call comes first. A failed registration returns `{500, signup message}` and makes no login request. A registration request that throws rejects the action, with no login request and no cookie. After a successful registration, the action does exactly what `login` does, except that a login failure carries its own, distinct message. |
| Counseling.Envelope | src/api/counseling.ts:35-50 | The envelope reports success exactly on an ok reply. Success carries the body and no message. Failure carries no data and the fixed message. |
| Counseling.CheckCounselingStatus | src/api/counseling.ts:25-51 | An ok reply gives `{success: true, data: body}`. A non-ok reply or a thrown error gives `{success: false, message}` without data. |
| Counseling.DataUrlPayload | src/api/counseling.ts:98 | A payload exists exactly when the data URL contains a comma. |
| Counseling.DataUrlPayloadOfBase64 | src/api/counseling.ts:97-98 | The payload of `data:<mime>;base64,<data>` is `<data>`. |
| Counseling.BlobToBase64 | src/api/counseling.ts:92-104 | A reader failure rejects. Otherwise the promise resolves with the data-URL payload. |
| Counseling.SendVoiceMessage | src/api/counseling.ts:54-89 | A blob that cannot be read sends nothing. Otherwise the body holds the payload as `user_audio_base64` and passes `session_id` through unchanged, undefined included. Success holds exactly when the reply is ok. A failure carries the fixed voice-error message and no data. |
| Counseling.CopyCharCodes | src/api/counseling.ts:111-115 | The loop yields one number per character. Element `i` is the code of character `i`. |
| Counseling.ToUint8 | src/api/counseling.ts:116 | Each byte of the `Uint8Array` lies in 0..255 and is congruent modulo 256 to its number. |
| Counseling.DecodedBytes | src/api/counseling.ts:111-116 | For an `atob` result, the bytes equal the character codes. |
| Counseling.PlayAudio | src/api/counseling.ts:107-138 | An `atob` failure rejects without creating a URL. Otherwise the URL is revoked exactly when the promise has settled. The first `ended` event resolves it, the first `error` event rejects it with the fixed message, and with no event it stays pending. |
| Counseling.SettlesOnce | src/api/counseling.ts:123-131 | Events after the first change neither the settlement nor the revocation. The handlers stay attached, but a second revocation and a second `resolve` or `reject` have no visible effect. |
| PhotoCapture.Initial | src/app/photo-capture/page.tsx:18-21 | The page starts in `permission` with an empty image and no result. |
| PhotoCapture.RequestCameraPermission | src/app/photo-capture/page.tsx:73-111 | The page ends in `ready` whether or not the camera was acquired. The image and the result are untouched. The stream becomes live only on acquisition. |
| PhotoCapture.CheckCameraPermission | src/app/photo-capture/page.tsx:39-70 | The page goes to `ready` exactly when permission is `granted` or the permissions API is missing. In that case the result is what `requestCameraPermission` gives. Otherwise only the state changes, to `permission`. |
| PhotoCapture.CapturePhoto | src/app/photo-capture/page.tsx:114-135 | With a video element, a canvas and a 2D context, the page goes to `captured` with the JPEG data URL, and a live stream is stopped. Otherwise nothing changes. |
| PhotoCapture.RetakePhoto | src/app/photo-capture/page.tsx:138-141 | The image is cleared and the page returns to `permission`. The result is kept. |
| PhotoCapture.BeginSend | src/app/photo-capture/page.tsx:147 | The page shows `sending`. Nothing else changes: the image, the result and the stream are kept. |
| PhotoCapture.SendPhoto | src/app/photo-capture/page.tsx:144-181 | With no image, nothing changes. Otherwise the page always ends in `result`: the server's answer when the reply is ok, else a fallback whose `imageUrl` is the captured image. |
| PhotoCapture.Fallback | src/app/photo-capture/page.tsx:175-178 | The fallback result shows the captured image itself. |
| PhotoCapture.TakeNewPhoto | src/app/photo-capture/page.tsx:184-188 | The page returns to the initial state, except for the stream reference. |
| PhotoCapture.HandlersPreserveConsistency | src/app/photo-capture/page.tsx:114-188 | Every handler preserves the page invariant: `captured` and `sending` always have an image, and `result` always has a result to show. |
| PhotoCapture.FailedUploadShowsCapturedPhoto | src/app/photo-capture/page.tsx:39-188 | Scenario: permission granted, photo taken, upload failed. The fallback shows the photo, and a new photo then starts over. |

## Left out

- Network I/O: each `fetch` becomes an input `Reply` (ok with a body, not ok, or thrown), and JSON parsing failures count as thrown. The JSON serialisation of request bodies is not modelled: the signup body is the pair of form values, and the voice body is a datatype with optional fields.
- Foreign functions are parameters, because their code is not part of this model. This covers `jwtDecode` (with `None` where it throws), the `btoa` encoding (its Latin-1 check is modelled), `decodeURIComponent`, `atob`, `FileReader`, `toDataURL`, `getUserMedia` and `navigator.permissions`. The bytes of the audio blob are not modelled, so neither is a base64 round trip of the audio.
- JWT claims are modelled as integers, as `src/types/index.ts` declares them to be numbers. Fractional or missing `exp`/`iat` values, which would be floating point or `NaN` in JavaScript, are not modelled.
- `Date.now()` is a parameter. The output of `toISOString` is represented by its time value in milliseconds. Only the range check that makes it throw is modelled.
- The request matcher is modelled as its regular expression, applied to the whole pathname. Next.js's compilation of matchers (path-to-regexp options, trailing slashes, locale and data routes) is not modelled.
- Cookie-store and browser cookie-jar semantics are not modelled: replacing a cookie of the same name, and dropping the expired cookie that `logout` writes. The model records the sequence of `cookieStore.set` calls and the string `logout` assigns.
- Asynchrony is not modelled: the `setTimeout` that attaches the stream to the video element, the ordering effect of the un-awaited `requestCameraPermission()` at page.tsx line 49, React state batching, the rejection of `audio.play()` (left unhandled by the source), and `console` logging.
- The canvas drawing (width, height, `drawImage`) is not modelled. Only whether the video element, canvas and context exist is an input.
- Pages that only render (`src/app/home/page.tsx`, `src/app/login/page.tsx`, `src/app/layout.tsx`, `src/app/page.tsx`, `src/app/counseling/page.tsx`) and `next.config.ts` are not part of this model.
- AuthActions.CookieInfo: its own contract states that the pieces join back to the sliced text. The exact pieces are stated only for two shapes, by `CookieInfoOfUsualHeader` (the usual header) and `CookieInfoWithoutSpace` (a header without a space).
- Strings are sequences of Unicode scalar values, while JavaScript strings are sequences of UTF-16 code units. The two differ only for characters outside the Basic Multilingual Plane, where the positions and lengths of `indexOf` and `slice`, `charCodeAt` in `CopyCharCodes`, and the regular-expression `.` in `FaviconLike` would count differently. The inputs never contain such characters: `atob` yields one byte per character, `btoa` accepts only Latin-1 (so the credentials `Authorization` encodes are Latin-1), `Set-Cookie` values are octets, and every separator is ASCII. Request paths are percent-encoded by the time they reach the middleware.
- ClientAuth.UserIffLoggedIn: the agreement between `getUser` and `isLoggedIn` is proved only for tokens whose `iat*1000` lies in the `Date` range. Outside it the source returns `null` from `getUser` although `isLoggedIn` holds (see `LoggedInWithoutUser`).

=== FILE: auth_actions.dfy ===
/**
 The server actions of src/actions/auth.action.ts. `login` sends the form's
 credentials as an HTTP Basic authorization (section 2 of RFC 7617), and on
 success copies every `Set-Cookie` header of the reply into the Next.js cookie
 store with an expiry nine hours after the token's own; `signup` registers
 the account and then performs the same login.
 */
module AuthActions {
  import opened Wrappers
  import opened JsString
  import opened Jwt
  import opened Http

  /** `formData.get(name)`: absent, a text field, or an uploaded file. */
  datatype FormValue = Missing | Text(text: string) | Upload

  /** A request the action sends to the backend. */
  datatype Call = SignupCall(email: FormValue, password: FormValue) | LoginCall(authorization: string)

  /** One `cookieStore.set({name, value, expires})`, the expiry in ms. */
  datatype StoredCookie = StoredCookie(name: string, value: string, expiresMs: int)

  /** The action returns a message, ends in `redirect(location)`, or throws. */
  datatype Outcome = Returned(status: int, message: string) | Redirected(location: string) | Threw

  /** The backend calls made, the cookies stored (in order) and the outcome. */
  datatype ActionResult = ActionResult(calls: seq<Call>, cookiesSet: seq<StoredCookie>, outcome: Outcome)

  /** `btoa` applied to a Latin-1 string; `btoa` throws on any other input. */
  type Encoder = string -> string

  /** `decodeURIComponent`, or `None` where it throws a `URIError`. */
  type UriDecoder = string -> Option<string>

  const LoginFailedMessage: string := "이메일 또는 비밀번호가 올바르지 않습니다."
  const SignupFailedMessage: string := "회원가입 중 오류가 발생했습니다."
  const SignupLoginFailedMessage: string := "회원가입은 완료되었지만 로그인 중 오류가 발생했습니다."

  /** Korea Standard Time is GMT+9. */
  const KstOffsetSeconds: int := 9 * 60 * 60

  /** A form value inside a template literal. */
  function Interpolate(v: FormValue): string {
    match v
    case Missing => "null"
    case Text(t) => t
    case Upload => "[object File]"
  }

  /** `${email}:${password}` */
  function Credentials(email: FormValue, password: FormValue): (c: string)
    // the user-id, one colon, then the password
    ensures |c| == |Interpolate(email)| + 1 + |Interpolate(password)|
    ensures c[..|Interpolate(email)|] == Interpolate(email) && c[|Interpolate(email)|] == ':'
    ensures c[|Interpolate(email)| + 1..] == Interpolate(password)
  {
    Interpolate(email) + ":" + Interpolate(password)
  }

  /** The user-id is recovered as the text before the first colon, and the
      password as everything after it, whenever the user-id has no colon. */
  lemma {:induction false} CredentialsSplitAtFirstColon(email: string, password: FormValue)
    requires ':' !in email
    ensures IndexOf(Credentials(Text(email), password), ":") == |email|
    ensures Credentials(Text(email), password)[..|email|] == email
    ensures Credentials(Text(email), password)[|email| + 1..] == Interpolate(password)
  {
    FirstOccurrenceAfter(email, ":", Interpolate(password));
  }

  /** The `Authorization` header value, or `None` when `btoa` throws. */
  function Authorization(email: FormValue, password: FormValue, encode: Encoder): (r: Option<string>)
    ensures r.Some? <==> Latin1(Credentials(email, password))
    ensures r.Some? ==> StartsWith(r.value, "Basic ") && r.value[6..] == encode(Credentials(email, password))
  {
    var credentials := Credentials(email, password);
    if Latin1(credentials) then Some("Basic " + encode(credentials)) else None
  }

  /** `v.slice(0, v.indexOf(' ') - 1).split('=')` */
  function CookieInfo(header: string): (info: seq<string>)
    ensures |info| >= 1
    // the pieces put back together are the text before the slice point
    ensures Join(info, "=") == Slice(header, 0, IndexOf(header, " ") - 1)
  {
    JoinSplit(Slice(header, 0, IndexOf(header, " ") - 1), "=");
    Split(Slice(header, 0, IndexOf(header, " ") - 1), "=")
  }

  /** A header of the usual shape `name=value; attributes` yields its name
      and value. */
  lemma CookieInfoOfUsualHeader(name: string, value: string, attributes: string)
    requires '=' !in name && ' ' !in name && '=' !in value && ' ' !in value
    ensures CookieInfo(name + "=" + value + "; " + attributes) == [name, value]
  {
    var pair := name + "=" + value;
    var header := pair + "; " + attributes;
    assert ' ' !in pair + ";";
    assert header == (pair + ";") + " " + attributes;
    FirstOccurrenceAfter(pair + ";", " ", attributes);
    assert Slice(header, 0, |pair|) == pair;
    SplitJoin([name, value], "=");
  }

  /** A header without any space has its last two characters dropped, since
      `indexOf` gives -1 and the slice ends at -2. */
  lemma CookieInfoWithoutSpace(header: string)
    requires ' ' !in header
    ensures |header| >= 2 ==> CookieInfo(header) == Split(header[..|header| - 2], "=")
    ensures |header| < 2 ==> CookieInfo(header) == [""]
  {
    AbsentWithoutFirstChar(header, " ");
  }

  /** `(exp + 9 * 60 * 60) * 1000` */
  function CookieExpiryMs(exp: int): (ms: int)
    ensures ms - exp * 1000 == 32_400_000
  {
    (exp + KstOffsetSeconds) * 1000
  }

  /** One pass of the cookie loop: `jwtDecode(cookieInfo[1])` (which throws on
      a missing piece), then `decodeURIComponent(cookieInfo[1])`. */
  function StoreOne(header: string, decode: Decoder, uriDecode: UriDecoder): (r: Option<StoredCookie>)
    ensures r.Some? <==> var info := CookieInfo(header);
                         |info| >= 2 && decode(info[1]).Some? && uriDecode(info[1]).Some?
    ensures r.Some? ==> var info := CookieInfo(header);
                        && r.value.name == info[0]
                        && Some(r.value.value) == uriDecode(info[1])
                        && r.value.expiresMs == (decode(info[1]).value.exp + 9 * 60 * 60) * 1000
  {
    var info := CookieInfo(header);
    if |info| < 2 then None
    else match decode(info[1])
      case None => None
      case Some(decoded) =>
        match uriDecode(info[1])
        case None => None
        case Some(value) => Some(StoredCookie(info[0], value, CookieExpiryMs(decoded.exp)))
  }

  /** The cookies stored by the loop, and whether it ran to the end. */
  datatype CookieRun = CookieRun(stored: seq<StoredCookie>, completed: bool)

  /** The loop over the per-header outcomes of `StoreOne`: each stored cookie
      is kept, and the first header that throws ends the loop. */
  function StoreUntilThrow(steps: seq<Option<StoredCookie>>): (run: CookieRun)
    ensures |run.stored| <= |steps|
    ensures run.completed <==> |run.stored| == |steps|
    ensures forall k :: 0 <= k < |run.stored| ==> steps[k] == Some(run.stored[k])
    ensures !run.completed ==> steps[|run.stored|].None?
  {
    if |steps| == 0 then CookieRun([], true)
    else match steps[0]
      case None => CookieRun([], false)
      case Some(cookie) =>
        var rest := StoreUntilThrow(steps[1..]);
        CookieRun([cookie] + rest.stored, rest.completed)
  }

  /** `for (const cookieInfo of cookieList) { ... cookieStore.set(...) }`:
      stores cookies in header order until the first one that throws. Each
      pass depends on its own header only, so the outcomes can be listed
      first. */
  function StoreCookies(headers: seq<string>, decode: Decoder, uriDecode: UriDecoder): (run: CookieRun)
    ensures |run.stored| <= |headers|
    ensures run.completed <==> |run.stored| == |headers|
    ensures forall k :: 0 <= k < |run.stored| ==> StoreOne(headers[k], decode, uriDecode) == Some(run.stored[k])
    ensures !run.completed ==> StoreOne(headers[|run.stored|], decode, uriDecode).None?
  {
    StoreUntilThrow(seq(|headers|, k requires 0 <= k < |headers| => StoreOne(headers[k], decode, uriDecode)))
  }

  /** The login request and cookie copy shared by `login` and by the automatic
      login after `signup`; they differ only in the failure message. */
  function Authenticate(email: FormValue, password: FormValue, encode: Encoder, reply: Reply<seq<string>>,
                        decode: Decoder, uriDecode: UriDecoder, failureMessage: string): (r: ActionResult)
    // `btoa` throwing ends the action before any request
    ensures !Latin1(Credentials(email, password)) ==> r == ActionResult([], [], Threw)
    ensures Latin1(Credentials(email, password)) ==>
              && r.calls == [LoginCall("Basic " + encode(Credentials(email, password)))]
              && (reply.Thrown? ==> r.cookiesSet == [] && r.outcome == Threw)
              && (reply.NotOk? ==> r.cookiesSet == [] && r.outcome == Returned(500, failureMessage))
              // cookies stored before a throwing header stay stored
              && (reply.Ok? ==> r.cookiesSet == StoreCookies(reply.body, decode, uriDecode).stored)
              && (reply.Ok? ==> (r.outcome == Redirected("/home") <==> |r.cookiesSet| == |reply.body|))
              && (reply.Ok? ==> r.outcome in {Redirected("/home"), Threw})
  {
    match Authorization(email, password, encode)
    case None => ActionResult([], [], Threw)
    case Some(authorization) =>
      var call := LoginCall(authorization);
      match reply
      case Thrown => ActionResult([call], [], Threw)
      case NotOk => ActionResult([call], [], Returned(500, failureMessage))
      case Ok(headers) =>
        var run := StoreCookies(headers, decode, uriDecode);
        ActionResult([call], run.stored, if run.completed then Redirected("/home") else Threw)
  }

  /** `login(_, formData)` */
  function Login(email: FormValue, password: FormValue, encode: Encoder, reply: Reply<seq<string>>,
                 decode: Decoder, uriDecode: UriDecoder): (r: ActionResult)
    // exactly one login request, when the credentials can be encoded
    ensures r.calls == if Latin1(Credentials(email, password))
                       then [LoginCall("Basic " + encode(Credentials(email, password)))] else []
    ensures r.outcome.Returned? <==> Latin1(Credentials(email, password)) && reply.NotOk?
    ensures r.outcome.Returned? ==> r.outcome == Returned(500, LoginFailedMessage) && r.cookiesSet == []
    ensures r.outcome.Redirected? ==>
              && r.outcome.location == "/home"
              && reply.Ok? && |r.cookiesSet| == |reply.body|
              && forall k :: 0 <= k < |reply.body| ==> StoreOne(reply.body[k], decode, uriDecode) == Some(r.cookiesSet[k])
    ensures !reply.Ok? ==> r.cookiesSet == []
    // the redirect happens exactly when every header stores a cookie
    ensures r.outcome.Redirected? <==>
              && Latin1(Credentials(email, password)) && reply.Ok?
              && forall k :: 0 <= k < |reply.body| ==> StoreOne(reply.body[k], decode, uriDecode).Some?
    ensures reply.Thrown? ==> r.outcome == Threw
    // `btoa` throwing rejects the action before any request or cookie
    ensures !Latin1(Credentials(email, password)) ==> r == ActionResult([], [], Threw)
    // cookies stored before a throwing header stay stored
    ensures Latin1(Credentials(email, password)) && reply.Ok? ==>
              r.cookiesSet == StoreCookies(reply.body, decode, uriDecode).stored
  {
    Authenticate(email, password, encode, reply, decode, uriDecode, LoginFailedMessage)
  }

  /** `signup(_, formData)` */
  function Signup(email: FormValue, password: FormValue, encode: Encoder, signupReply: Reply<()>,
                  loginReply: Reply<seq<string>>, decode: Decoder, uriDecode: UriDecoder): (r: ActionResult)
    ensures |r.calls| >= 1 && r.calls[0] == SignupCall(email, password)
    // a failed registration makes no login request and stores nothing
    ensures signupReply.NotOk? ==> r == ActionResult([SignupCall(email, password)], [], Returned(500, SignupFailedMessage))
    // after a registration, exactly what `login` would do, with its own failure message
    ensures signupReply.Ok? ==>
              var login := Login(email, password, encode, loginReply, decode, uriDecode);
              && r.calls[1..] == login.calls
              && r.cookiesSet == login.cookiesSet
              && r.outcome == (if login.outcome.Returned? then Returned(500, SignupLoginFailedMessage) else login.outcome)
    ensures r.outcome.Returned? ==>
              r.outcome.status == 500 && (r.outcome.message == SignupFailedMessage <==> signupReply.NotOk?)
    // a registration request that throws rejects the action before any login
    ensures signupReply.Thrown? ==> r == ActionResult([SignupCall(email, password)], [], Threw)
  {
    var registration := SignupCall(email, password);
    match signupReply
    case Thrown => ActionResult([registration], [], Threw)
    case NotOk => ActionResult([registration], [], Returned(500, SignupFailedMessage))
    case Ok(_) =>
      var login := Authenticate(email, password, encode, loginReply, decode, uriDecode, SignupLoginFailedMessage);
      ActionResult([registration] + login.calls, login.cookiesSet, login.outcome)
  }
}

=== FILE: client_auth.dfy ===
/**
 The client-side session helpers of src/lib/auth.ts. Both `isLoggedIn` and
 `getUser` read the `authToken` segment of `document.cookie`, decode it and
 compare its expiry with the clock; `logout` overwrites the cookie with an
 empty, already expired one and navigates to the login page.
 */
module ClientAuth {
  import opened Wrappers
  import opened JsString
  import opened Jwt

  /** Server-side rendering (no `window`) or a browser with its cookie string. */
  datatype Browser = NoWindow | Window(cookie: string)

  /** What `getUser` returns: the address and the issue instant (ms). */
  datatype User = User(email: string, loginTimeMs: int)

  /** What `logout` does in a browser: the cookie string it assigns and the
      page it navigates to. */
  datatype LogoutEffect = LogoutEffect(cookieWritten: string, location: string)

  const TokenPrefix: string := "authToken="

  /** `authToken=; expires=Thu, 01 Jan 1970 00:00:00 UTC; path=/;` */
  const LogoutCookie: string := TokenPrefix + "; " + LogoutAttributes

  const LogoutAttributes: string := "expires=Thu, 01 Jan 1970 00:00:00 UTC; path=/;"

  /** Largest magnitude of a valid `Date` time value, in milliseconds. */
  const MaxTimeMs: int := 8_640_000_000_000_000

  /** `new Date(t)` is a valid date, so `toISOString` does not throw. */
  predicate ValidTimeValue(t: int) {
    -MaxTimeMs <= t <= MaxTimeMs
  }

  /** `rows.find(row => row.startsWith(prefix))` */
  function FindRow(rows: seq<string>, prefix: string): (r: Option<string>)
    ensures r.None? <==> forall row :: row in rows ==> !StartsWith(row, prefix)
    ensures r.Some? ==> exists k :: 0 <= k < |rows| && rows[k] == r.value
                                   && forall j :: 0 <= j < k ==> !StartsWith(rows[j], prefix)
    ensures r.Some? ==> StartsWith(r.value, prefix)
  {
    if |rows| == 0 then None
    else if StartsWith(rows[0], prefix) then Some(rows[0])
    else
      var r := FindRow(rows[1..], prefix);
      assert forall k :: 1 <= k < |rows| ==> rows[k] == rows[1..][k - 1];
      r
  }

  /** `document.cookie.split('; ').find(row => row.startsWith('authToken='))?.split('=')[1]` */
  function CookieToken(cookie: string): (r: Option<string>)
    ensures r.None? <==> forall row :: row in Split(cookie, "; ") ==> !StartsWith(row, TokenPrefix)
  {
    match FindRow(Split(cookie, "; "), TokenPrefix)
    case None => None
    case Some(row) =>
      IndexOfFindsFirst(row, "=");
      assert OccursAt(row, "=", 9);
      var pieces := Split(row, "=");
      Some(pieces[1])
  }

  /** The claims of a present, non-empty, decodable cookie token. */
  function SessionClaims(browser: Browser, decode: Decoder): (r: Option<JwtData>)
    // claims come only from a browser whose cookie string has an `authToken=` row
    ensures r.Some? ==> browser.Window? && exists row :: row in Split(browser.cookie, "; ") && StartsWith(row, TokenPrefix)
    // and they are exactly what that token decodes to, when it is not empty
    ensures r.Some? <==> browser.Window? && CookieToken(browser.cookie).Some?
                         && CookieToken(browser.cookie).value != "" && decode(CookieToken(browser.cookie).value).Some?
    ensures r.Some? ==> r == decode(CookieToken(browser.cookie).value)
  {
    if browser.NoWindow? then None
    else match CookieToken(browser.cookie)
      case None => None
      case Some(token) => if token == "" then None else decode(token)
  }

  /** `auth.isLoggedIn()` */
  function IsLoggedIn(browser: Browser, decode: Decoder, nowMs: int): (r: bool)
    ensures r <==> SessionClaims(browser, decode).Some? && nowMs < SessionClaims(browser, decode).value.exp * 1000
    ensures browser.NoWindow? ==> !r
  {
    if browser.NoWindow? then false
    else
      var token := CookieToken(browser.cookie);
      if token.None? || token.value == "" then false
      else match decode(token.value)
        case None => false
        case Some(decoded) => nowMs < decoded.exp * 1000
  }

  /** `auth.getUser()`: a `RangeError` from `toISOString` on an out-of-range
      issue time is caught like a decode failure. */
  function GetUser(browser: Browser, decode: Decoder, nowMs: int): (r: Option<User>)
    ensures r.Some? <==> && SessionClaims(browser, decode).Some?
                         && !Expired(nowMs, SessionClaims(browser, decode).value.exp)
                         && ValidTimeValue(SessionClaims(browser, decode).value.iat * 1000)
    ensures r.Some? ==> var claims := SessionClaims(browser, decode).value;
                        && r.value.loginTimeMs == claims.iat * 1000
                        && (claims.email.Some? && claims.email.value != "" ==> r.value.email == claims.email.value)
                        && (claims.email.None? || claims.email.value == "" ==> r.value.email == claims.sub)
  {
    if browser.NoWindow? then None
    else
      var token := CookieToken(browser.cookie);
      if token.None? || token.value == "" then None
      else match decode(token.value)
        case None => None
        case Some(decoded) =>
          if Expired(nowMs, decoded.exp) then None
          else if !ValidTimeValue(decoded.iat * 1000) then None
          else
            var email := if decoded.email.Some? && decoded.email.value != "" then decoded.email.value else decoded.sub;
            Some(User(email, decoded.iat * 1000))
  }

  /** `auth.logout()` */
  function Logout(browser: Browser): (r: Option<LogoutEffect>)
    ensures r.Some? <==> browser.Window?
    ensures r.Some? ==> StartsWith(r.value.cookieWritten, TokenPrefix) && r.value.location == "/login"
    // the pair written is `authToken=` with an empty value
    ensures r.Some? ==> Split(r.value.cookieWritten, "; ")[0] == TokenPrefix
  {
    assert LogoutCookie[..10] == TokenPrefix;
    LogoutPair();
    if browser.Window? then Some(LogoutEffect(LogoutCookie, "/login")) else None
  }

  /** `getUser` yields a user only for a signed-in browser, and every signed-in
      browser whose token carries a representable issue time yields one. */
  lemma UserIffLoggedIn(browser: Browser, decode: Decoder, nowMs: int)
    ensures GetUser(browser, decode, nowMs).Some? ==> IsLoggedIn(browser, decode, nowMs)
    ensures (IsLoggedIn(browser, decode, nowMs) && ValidTimeValue(SessionClaims(browser, decode).value.iat * 1000))
              ==> GetUser(browser, decode, nowMs).Some?
  {
  }

  /** A signed-in browser whose token's issue time is beyond the `Date` range
      gets no user, although `isLoggedIn` holds. */
  lemma LoggedInWithoutUser(browser: Browser, decode: Decoder, nowMs: int)
    requires IsLoggedIn(browser, decode, nowMs)
    requires SessionClaims(browser, decode).value.iat > MaxTimeMs / 1000
    ensures GetUser(browser, decode, nowMs) == None
  {
  }

  /** The token is the text of the first `authToken=` row up to the next `=`:
      a value containing `=` is cut short. */
  lemma {:induction false} TokenIsTextUpToNextEquals(rows: seq<string>, k: nat, v: string)
    requires k < |rows| && forall i :: 0 <= i < |rows| ==> ';' !in rows[i]
    requires rows[k] == TokenPrefix + v
    requires forall j :: 0 <= j < k ==> !StartsWith(rows[j], TokenPrefix)
    ensures IndexOf(v, "=") < 0 ==> CookieToken(Join(rows, "; ")) == Some(v)
    ensures IndexOf(v, "=") >= 0 ==> CookieToken(Join(rows, "; ")) == Some(v[..IndexOf(v, "=")])
  {
    SplitJoin(rows, "; ");
    assert StartsWith(rows[k], TokenPrefix);
    FirstRowWins(rows, k);
    ValueOfTokenRow(v);
  }

  /** The second `=`-piece of `authToken=v` is `v` up to its first `=`. */
  lemma ValueOfTokenRow(v: string)
    ensures |Split(TokenPrefix + v, "=")| >= 2
    ensures IndexOf(v, "=") < 0 ==> Split(TokenPrefix + v, "=")[1] == v
    ensures IndexOf(v, "=") >= 0 ==> Split(TokenPrefix + v, "=")[1] == v[..IndexOf(v, "=")]
  {
    var row := TokenPrefix + v;
    assert row == "authToken" + "=" + v;
    FirstOccurrenceAfter("authToken", "=", v);
    SplitHead(row, "=");
    assert row[10..] == v;
    SplitHead(v, "=");
  }

  /** `find` returns the first row that starts with the prefix. */
  lemma {:induction false} FirstRowWins(rows: seq<string>, k: nat)
    requires k < |rows| && StartsWith(rows[k], TokenPrefix)
    requires forall j :: 0 <= j < k ==> !StartsWith(rows[j], TokenPrefix)
    ensures FindRow(rows, TokenPrefix) == Some(rows[k])
    decreases k
  {
    if k > 0 {
      FirstRowWins(rows[1..], k - 1);
    }
  }

  lemma TokenPrefixHasNoSemicolon()
    ensures ';' !in TokenPrefix
  {
    assert TokenPrefix == ['a', 'u', 't', 'h', 'T', 'o', 'k', 'e', 'n', '='];
  }

  /** The name-value pair of the cookie `logout` writes is `authToken=`. */
  lemma LogoutPair()
    ensures Split(LogoutCookie, "; ")[0] == TokenPrefix
  {
    TokenPrefixHasNoSemicolon();
    FirstOccurrenceAfter(TokenPrefix, "; ", LogoutAttributes);
    SplitHead(LogoutCookie, "; ");
    assert LogoutCookie[..10] == TokenPrefix;
  }

  /** That pair carries an empty token, so a cookie string holding it reads
      as signed out. */
  lemma LogoutPairSignsOut(decode: Decoder, nowMs: int)
    ensures CookieToken(TokenPrefix) == Some("")
    ensures !IsLoggedIn(Window(TokenPrefix), decode, nowMs)
    ensures GetUser(Window(TokenPrefix), decode, nowMs) == None
  {
    TokenPrefixHasNoSemicolon();
    assert TokenPrefix + "" == TokenPrefix;
    TokenIsTextUpToNextEquals([TokenPrefix], 0, "");
    assert Join([TokenPrefix], "; ") == TokenPrefix;
  }

  /** The cookie pair `logout` writes signs the browser out: read back on its
      own it yields the empty token, so neither helper sees a session. */
  lemma LogoutSignsOut(browser: Browser, decode: Decoder, nowMs: int)
    requires browser.Window?
    ensures var pair := Split(Logout(browser).value.cookieWritten, "; ")[0];
            && CookieToken(pair) == Some("")
            && !IsLoggedIn(Window(pair), decode, nowMs)
            && GetUser(Window(pair), decode, nowMs) == None
  {
    LogoutPairSignsOut(decode, nowMs);
  }
}

=== FILE: common.dfy ===
/** The optional value used wherever the application has `undefined` or `null`. */
module Wrappers {

  datatype Option<+T> = None | Some(value: T)
}

/**
 The outcome of a `fetch` call as the application observes it: a response
 whose `ok` flag is set (with the parsed body), a response whose `ok` flag is
 clear, or a thrown error (network failure or unparsable body).
 */
module Http {

  datatype Reply<+T> = Ok(body: T) | NotOk | Thrown
}

/**
 The JWT payload shape of src/types/index.ts and the expiry test shared by the
 route gate, the client-side session check and the server actions.
 */
module Jwt {
  import opened Wrappers

  /** Claims read from a decoded token; `exp` and `iat` are in seconds. */
  datatype JwtData = JwtData(exp: int, iat: int, sub: string, email: Option<string>)

  /** `jwtDecode`: a payload, or `None` where the library throws. */
  type Decoder = string -> Option<JwtData>

  /** `Date.now() >= exp * 1000`: the token's expiry instant has been reached. */
  predicate Expired(nowMs: int, exp: int) {
    nowMs >= exp * 1000
  }
}

=== FILE: counseling.dfy ===
/**
 The counseling API client of src/api/counseling.ts: the two calls that wrap
 a `fetch` outcome into the `ApiResponse` envelope, the data-URL split that
 turns a recorded blob into its base64 payload, and the playback helper that
 copies a decoded base64 string into bytes and plays them.
 */
module Counseling {
  import opened Wrappers
  import opened JsString
  import opened Http

  datatype CounselingStatus = CounselingStatus(hasInitialCounseling: bool, counselingDate: Option<string>, counselingId: Option<string>)

  datatype VoiceCounselingResponse = VoiceCounselingResponse(assistantAudioBase64: string, sessionId: Option<string>, isComplete: Option<bool>)

  /** `{ success, data?, message? }` */
  datatype ApiResponse<T> = ApiResponse(success: bool, data: Option<T>, message: Option<string>)

  /** The JSON body posted to `/api/counseling/voice`; an absent field is
      left out by `JSON.stringify`. */
  datatype VoiceRequest = VoiceRequest(userAudioBase64: Option<string>, sessionId: Option<string>)

  /** The request sent (none when the blob could not be read) and the envelope returned. */
  datatype VoiceExchange = VoiceExchange(request: Option<VoiceRequest>, response: ApiResponse<VoiceCounselingResponse>)

  const StatusErrorMessage: string := "상담 상태 확인 중 오류가 발생했습니다."
  const VoiceErrorMessage: string := "음성 메시지 전송 중 오류가 발생했습니다."
  const PlaybackErrorMessage: string := "오디오 재생 중 오류가 발생했습니다."

  /** The try/catch shape both calls share: an ok reply carries its body, a
      non-ok reply or a thrown error collapses to the fixed message. */
  function Envelope<T>(reply: Reply<T>, errorMessage: string): (r: ApiResponse<T>)
    ensures r.success <==> reply.Ok?
    ensures r.success ==> r.data == Some(reply.body) && r.message.None?
    ensures !r.success ==> r.data.None? && r.message == Some(errorMessage)
  {
    match reply
    case Ok(body) => ApiResponse(true, Some(body), None)
    case _ => ApiResponse(false, None, Some(errorMessage))
  }

  /** `checkCounselingStatus()` */
  function CheckCounselingStatus(reply: Reply<CounselingStatus>): (r: ApiResponse<CounselingStatus>)
    ensures r.success <==> reply.Ok?
    ensures r.success ==> r.data == Some(reply.body) && r.message.None?
    ensures !r.success ==> r.data.None? && r.message == Some(StatusErrorMessage)
  {
    Envelope(reply, StatusErrorMessage)
  }

  /** `result.split(',')[1]`, `undefined` when the URL has no comma. */
  function DataUrlPayload(dataUrl: string): (r: Option<string>)
    ensures r.Some? <==> ',' in dataUrl
  {
    var pieces := Split(dataUrl, ",");
    SplitHead(dataUrl, ",");
    FoundIffPresent(dataUrl, ',');
    if |pieces| >= 2 then Some(pieces[1]) else None
  }

  /** The payload of `data:<mime>;base64,<data>` is `<data>`. */
  lemma DataUrlPayloadOfBase64(mime: string, data: string)
    requires ',' !in mime && ',' !in data
    ensures DataUrlPayload("data:" + mime + ";base64," + data) == Some(data)
  {
    var header := "data:" + mime + ";base64";
    assert ',' !in header;
    assert "data:" + mime + ";base64," + data == Join([header, data], ",");
    SplitJoin([header, data], ",");
  }

  /** `blobToBase64(blob)`: `reader.result` as a data URL, or `None` when the
      reader fails (the promise rejects). */
  function BlobToBase64(readerResult: Option<string>): (r: Option<Option<string>>)
    ensures r.Some? <==> readerResult.Some?
    ensures r.Some? ==> r.value == DataUrlPayload(readerResult.value)
  {
    match readerResult
    case None => None
    case Some(url) => Some(DataUrlPayload(url))
  }

  /** `sendVoiceMessage(audioBlob, sessionId)` */
  function SendVoiceMessage(readerResult: Option<string>, sessionId: Option<string>,
                            reply: Reply<VoiceCounselingResponse>): (x: VoiceExchange)
    // a blob that cannot be read sends nothing
    ensures readerResult.None? ==> x.request.None?
    // the session id is passed through untouched, undefined included
    ensures readerResult.Some? ==> x.request == Some(VoiceRequest(DataUrlPayload(readerResult.value), sessionId))
    ensures x.response.success <==> readerResult.Some? && reply.Ok?
    ensures x.response.success ==> x.response.data == Some(reply.body) && x.response.message.None?
    ensures !x.response.success ==> x.response.data.None? && x.response.message == Some(VoiceErrorMessage)
  {
    match BlobToBase64(readerResult)
    case None => VoiceExchange(None, ApiResponse(false, None, Some(VoiceErrorMessage)))
    case Some(audioBase64) =>
      VoiceExchange(Some(VoiceRequest(audioBase64, sessionId)), Envelope(reply, VoiceErrorMessage))
  }

  /** The strings `atob` produces: one character per byte. */
  type ByteString = s: string | Latin1(s) witness ""

  /** `atob`, or `None` where it throws on malformed input. */
  type Base64Decoder = string -> Option<ByteString>

  /** The loop `byteNumbers[i] = byteCharacters.charCodeAt(i)`. */
  method CopyCharCodes(byteCharacters: string) returns (byteNumbers: seq<int>)
    ensures |byteNumbers| == |byteCharacters|
    ensures forall i :: 0 <= i < |byteCharacters| ==> byteNumbers[i] == byteCharacters[i] as int
  {
    byteNumbers := [];
    var i := 0;
    while i < |byteCharacters|
      invariant 0 <= i <= |byteCharacters|
      invariant |byteNumbers| == i
      invariant forall j :: 0 <= j < i ==> byteNumbers[j] == byteCharacters[j] as int
    {
      byteNumbers := byteNumbers + [byteCharacters[i] as int];
      i := i + 1;
    }
  }

  /** `new Uint8Array(byteNumbers)`: each number reduced modulo 2^8. */
  function ToUint8(numbers: seq<int>): (bytes: seq<int>)
    ensures |bytes| == |numbers|
    ensures forall i :: 0 <= i < |numbers| ==> 0 <= bytes[i] < 256 && (bytes[i] - numbers[i]) % 256 == 0
  {
    seq(|numbers|, i requires 0 <= i < |numbers| => numbers[i] % 256)
  }

  /** For a decoded byte string the reduction changes nothing: the bytes are
      the character codes. */
  method DecodedBytes(byteCharacters: ByteString) returns (bytes: seq<int>)
    ensures |bytes| == |byteCharacters|
    ensures forall i :: 0 <= i < |bytes| ==> bytes[i] == byteCharacters[i] as int
  {
    var numbers := CopyCharCodes(byteCharacters);
    bytes := ToUint8(numbers);
    forall i | 0 <= i < |bytes|
      ensures bytes[i] == byteCharacters[i] as int
    {
      assert 0 <= numbers[i] <= 0xFF;
    }
  }

  /** What the element fires after `play()`. */
  datatype MediaEvent = Ended | Errored

  datatype RejectReason = DecodeFailed | PlaybackFailed(message: string)

  datatype Settlement = Pending | Resolved | Rejected(reason: RejectReason)

  /** The promise of `playAudioFromBase64` and whether the object URL has
      been revoked. */
  datatype Playback = Playback(urlCreated: bool, urlRevoked: bool, settlement: Settlement)

  /** `playAudioFromBase64(base64Audio)` given the events the element fires;
      a promise settles once, so only the first event decides. */
  function PlayAudio(base64Audio: string, atob: Base64Decoder, events: seq<MediaEvent>): (p: Playback)
    ensures atob(base64Audio).None? ==> p == Playback(false, false, Rejected(DecodeFailed))
    ensures atob(base64Audio).Some? ==> p.urlCreated && (p.urlRevoked <==> !p.settlement.Pending?)
    ensures atob(base64Audio).Some? ==> (p.settlement.Pending? <==> |events| == 0)
    ensures atob(base64Audio).Some? && |events| > 0 ==>
              (p.settlement == Resolved <==> events[0] == Ended)
              && (p.settlement == Rejected(PlaybackFailed(PlaybackErrorMessage)) <==> events[0] == Errored)
  {
    match atob(base64Audio)
    case None => Playback(false, false, Rejected(DecodeFailed))
    case Some(_) =>
      if |events| == 0 then Playback(true, false, Pending)
      else match events[0]
        case Ended => Playback(true, true, Resolved)
        case Errored => Playback(true, true, Rejected(PlaybackFailed(PlaybackErrorMessage)))
  }

  /** Events after the first change neither the settlement nor the revocation.
      The source never detaches `onended` or `onerror`, so a later event runs
      `revokeObjectURL` again on a URL already revoked, and then a `resolve`
      or `reject` that a settled promise ignores. Neither is observable, so
      `PlayAudio` reads only the first event. */
  lemma SettlesOnce(base64Audio: string, atob: Base64Decoder, events: seq<MediaEvent>, later: seq<MediaEvent>)
    requires |events| > 0
    ensures PlayAudio(base64Audio, atob, events + later) == PlayAudio(base64Audio, atob, events)
  {
    assert (events + later)[0] == events[0];
  }
}

=== FILE: js_string.dfy ===
/**
 The few JavaScript string primitives the application relies on, following
 the ECMAScript algorithms of `startsWith`, `includes`, `indexOf`, `slice`
 (negative indices count from the end and are clamped) and `split` with a
 non-empty string separator, together with `Join` as its inverse. Positions
 and lengths are counted in Unicode scalar values rather than UTF-16 code
 units.
 */
module JsString {

  /** Every character fits in one byte: the strings `btoa` accepts and the
      strings `atob` produces. */
  predicate Latin1(s: string) {
    forall i :: 0 <= i < |s| ==> s[i] as int <= 0xFF
  }

  /** `s.startsWith(p)` */
  predicate StartsWith(s: string, p: string) {
    |p| <= |s| && s[..|p|] == p
  }

  /** A string that differs from `p` at some index of both does not start with `p`. */
  lemma DiffersAt(s: string, p: string, i: nat)
    requires i < |s| && i < |p| && s[i] != p[i]
    ensures !StartsWith(s, p)
  {
    if |p| <= |s| {
      assert s[..|p|][i] == s[i];
    }
  }

  /** A string starts with any of its prefixes. */
  lemma StartsWithPrefix(p: string, t: string)
    ensures StartsWith(p + t, p)
  {
    assert (p + t)[..|p|] == p;
  }

  /** `sep` occurs in `s` starting at index `i`. */
  predicate OccursAt(s: string, sep: string, i: int) {
    0 <= i && i + |sep| <= |s| && s[i..i + |sep|] == sep
  }

  /** `s.indexOf(sep)`: the first index at which `sep` occurs, or -1. */
  function IndexOf(s: string, sep: string): (r: int)
    ensures r >= -1
    ensures r >= 0 ==> r + |sep| <= |s|
    decreases |s|
  {
    if |s| < |sep| then -1
    else if s[..|sep|] == sep then 0
    else
      var k := IndexOf(s[1..], sep);
      if k < 0 then -1 else k + 1
  }

  /** `IndexOf` finds the first occurrence, and -1 means there is none. */
  lemma {:induction false} IndexOfFindsFirst(s: string, sep: string)
    ensures IndexOf(s, sep) >= 0 ==> OccursAt(s, sep, IndexOf(s, sep))
    ensures IndexOf(s, sep) >= 0 ==> forall j :: 0 <= j < IndexOf(s, sep) ==> !OccursAt(s, sep, j)
    ensures IndexOf(s, sep) < 0 ==> forall j :: !OccursAt(s, sep, j)
    decreases |s|
  {
    if |s| < |sep| {
      forall j
        ensures !OccursAt(s, sep, j)
      {
      }
    } else if s[..|sep|] == sep {
      assert OccursAt(s, sep, 0);
    } else {
      var t := s[1..];
      var k := IndexOf(t, sep);
      IndexOfFindsFirst(t, sep);
      ShiftOccurrence(s, sep);
      assert !OccursAt(s, sep, 0);
      if k < 0 {
        forall j
          ensures !OccursAt(s, sep, j)
        {
          if j >= 1 {
            assert !OccursAt(t, sep, j - 1);
          }
        }
      } else {
        assert OccursAt(t, sep, k);
        assert OccursAt(s, sep, k + 1);
        forall j | 0 <= j < k + 1
          ensures !OccursAt(s, sep, j)
        {
          if j >= 1 {
            assert !OccursAt(t, sep, j - 1);
          }
        }
      }
    }
  }

  /** An occurrence in `s[1..]` is an occurrence in `s`, one position later. */
  lemma ShiftOccurrence(s: string, sep: string)
    requires |s| >= 1
    ensures forall j :: 1 <= j ==> (OccursAt(s, sep, j) <==> OccursAt(s[1..], sep, j - 1))
  {
    forall j | 1 <= j
      ensures OccursAt(s, sep, j) <==> OccursAt(s[1..], sep, j - 1)
    {
      if j + |sep| <= |s| {
        assert s[1..][j - 1..j - 1 + |sep|] == s[j..j + |sep|];
      }
    }
  }

  /** The ToIntegerOrInfinity-then-clamp step of `slice` for one index. */
  function ClampIndex(k: int, len: nat): (r: nat)
    ensures r <= len
    ensures k < 0 && len + k >= 0 ==> r == len + k
    ensures 0 <= k <= len ==> r == k
  {
    if k < 0 then (if len + k < 0 then 0 else len + k)
    else if k > len then len
    else k
  }

  /** `s.slice(start, end)` */
  function Slice(s: string, start: int, end: int): (r: string)
    ensures |r| <= |s|
    ensures start == 0 ==> r == s[..|r|]
    // the characters from the clamped start up to the clamped end, none when
    // the end does not lie beyond the start
    ensures |r| == if ClampIndex(start, |s|) < ClampIndex(end, |s|)
                   then ClampIndex(end, |s|) - ClampIndex(start, |s|) else 0
    ensures forall i :: 0 <= i < |r| ==> r[i] == s[ClampIndex(start, |s|) + i]
  {
    var from := ClampIndex(start, |s|);
    var to := ClampIndex(end, |s|);
    if from < to then s[from..to] else ""
  }

  /** `s.split(sep)` for a non-empty separator. */
  function Split(s: string, sep: string): (parts: seq<string>)
    requires |sep| > 0
    ensures |parts| >= 1
    decreases |s|
  {
    var i := IndexOf(s, sep);
    if i < 0 then [s] else [s[..i]] + Split(s[i + |sep|..], sep)
  }

  /** `parts.join(sep)`: the inverse of `Split`. */
  function Join(parts: seq<string>, sep: string): string
    requires |parts| >= 1
  {
    if |parts| == 1 then parts[0] else parts[0] + sep + Join(parts[1..], sep)
  }

  /** Joining the pieces of a split gives back the original string. */
  lemma {:induction false} JoinSplit(s: string, sep: string)
    requires |sep| > 0
    ensures Join(Split(s, sep), sep) == s
    decreases |s|
  {
    var i := IndexOf(s, sep);
    if i >= 0 {
      var rest := s[i + |sep|..];
      var parts := Split(s, sep);
      assert parts == [s[..i]] + Split(rest, sep);
      assert parts[1..] == Split(rest, sep);
      JoinSplit(rest, sep);
      assert Join(parts, sep) == s[..i] + sep + rest;
      IndexOfFindsFirst(s, sep);
      assert s[i..i + |sep|] == sep;
      assert s == s[..i] + s[i..i + |sep|] + rest;
    }
  }

  /** No piece of a split contains the separator. */
  lemma {:induction false} SplitPiecesAreFree(s: string, sep: string)
    requires |sep| > 0
    ensures forall k :: 0 <= k < |Split(s, sep)| ==> IndexOf(Split(s, sep)[k], sep) == -1
    decreases |s|
  {
    var i := IndexOf(s, sep);
    IndexOfFindsFirst(s, sep);
    if i >= 0 {
      var rest := s[i + |sep|..];
      SplitPiecesAreFree(rest, sep);
      var head := s[..i];
      IndexOfFindsFirst(s, sep);
      forall j | 0 <= j && j + |sep| <= |head|
        ensures OccursAt(head, sep, j) ==> OccursAt(s, sep, j)
      {
        assert head[j..j + |sep|] == s[j..j + |sep|];
      }
      IndexOfFindsFirst(head, sep);
      assert IndexOf(head, sep) == -1;
      assert Split(s, sep) == [head] + Split(rest, sep);
    }
  }

  /** A string free of the separator's first character does not contain it. */
  lemma AbsentWithoutFirstChar(s: string, sep: string)
    requires |sep| > 0 && sep[0] !in s
    ensures IndexOf(s, sep) == -1
  {
    IndexOfFindsFirst(s, sep);
  }

  /** `s.indexOf(c)` finds a one-character string exactly when `c` is in `s`. */
  lemma FoundIffPresent(s: string, c: char)
    ensures IndexOf(s, [c]) >= 0 <==> c in s
  {
    var r := IndexOf(s, [c]);
    IndexOfFindsFirst(s, [c]);
    if r >= 0 {
      assert s[r..r + 1][0] == s[r];
    }
  }

  /** When `p` has none of `sep`'s first character, the first occurrence of
      `sep` in `p + sep + t` is the one right after `p`. */
  lemma {:induction false} FirstOccurrenceAfter(p: string, sep: string, t: string)
    requires |sep| > 0 && sep[0] !in p
    ensures IndexOf(p + sep + t, sep) == |p|
    decreases |p|
  {
    var s := p + sep + t;
    if |p| == 0 {
      assert s[..|sep|] == sep;
    } else {
      assert s[..|sep|][0] == p[0];
      assert s[1..] == p[1..] + sep + t;
      FirstOccurrenceAfter(p[1..], sep, t);
    }
  }

  /** Splitting a join of separator-free parts gives the parts back. */
  lemma {:induction false} SplitJoin(parts: seq<string>, sep: string)
    requires |parts| >= 1 && |sep| > 0
    requires forall k :: 0 <= k < |parts| ==> sep[0] !in parts[k]
    ensures Split(Join(parts, sep), sep) == parts
    decreases |parts|
  {
    if |parts| == 1 {
      AbsentWithoutFirstChar(parts[0], sep);
    } else {
      var tail := parts[1..];
      var rest := Join(tail, sep);
      var s := parts[0] + sep + rest;
      assert Join(parts, sep) == s;
      FirstOccurrenceAfter(parts[0], sep, rest);
      assert s[..|parts[0]|] == parts[0];
      assert s[|parts[0]| + |sep|..] == rest;
      assert Split(s, sep) == [parts[0]] + Split(rest, sep);
      assert forall k :: 0 <= k < |tail| ==> tail[k] == parts[k + 1];
      SplitJoin(tail, sep);
      assert parts == [parts[0]] + tail;
    }
  }

  /** The first piece of a split is the text before the first separator, and
      the second (when there is one) starts right after it. */
  lemma SplitHead(s: string, sep: string)
    requires |sep| > 0
    ensures IndexOf(s, sep) < 0 ==> Split(s, sep) == [s]
    ensures IndexOf(s, sep) >= 0 ==>
              && |Split(s, sep)| >= 2
              && Split(s, sep)[0] == s[..IndexOf(s, sep)]
              && Split(s, sep)[1] == Split(s[IndexOf(s, sep) + |sep|..], sep)[0]
  {
    var i := IndexOf(s, sep);
    if i >= 0 {
      var tail := Split(s[i + |sep|..], sep);
      assert Split(s, sep) == [s[..i]] + tail;
      assert |tail| >= 1;
    }
  }
}

=== FILE: middleware.dfy ===
/**
 The route gate of src/middleware.ts: a pure decision from the request path,
 the `authToken` cookie, the result of decoding it and the clock, to "pass the
 request through" or "redirect", possibly deleting the cookie on the way; and
 the request matcher that decides which paths reach the gate at all.
 */
module Middleware {
  import opened Wrappers
  import opened JsString
  import opened Jwt

  /** `NextResponse.next()` or `NextResponse.redirect(location)`, the latter
      with `authToken` deleted when `clearAuthToken` is set. */
  datatype Response = Next | Redirect(location: string, clearAuthToken: bool)

  /** Paths a visitor without a token may see. */
  const PublicRoutes: seq<string> := ["/login", "/signup", "/", "/home", "/counseling"]

  /** Static assets, API routes, the service worker, the manifest and any path
      with a dot bypass the gate. */
  predicate Bypassed(pathname: string)
    // the two Next.js asset trees the matcher also names are bypassed here too
    ensures StartsWith(pathname, "/_next/static") || StartsWith(pathname, "/_next/image") ==> Bypassed(pathname)
  {
    NextAssetPrefix(pathname);
    || StartsWith(pathname, "/_next")
    || StartsWith(pathname, "/api")
    || StartsWith(pathname, "/sw.js")
    || StartsWith(pathname, "/manifest.json")
    || '.' in pathname
  }

  /** JavaScript truthiness of the cookie value: absent and empty are falsy. */
  predicate HasToken(authToken: Option<string>) {
    authToken.Some? && authToken.value != ""
  }

  /** The token is present, decodes, and has not reached its expiry. */
  predicate ValidToken(authToken: Option<string>, decode: Decoder, nowMs: int) {
    && HasToken(authToken)
    && decode(authToken.value).Some?
    && !Expired(nowMs, decode(authToken.value).value.exp)
  }

  /** The `middleware` function. */
  function Decide(pathname: string, authToken: Option<string>, decode: Decoder, nowMs: int): (r: Response)
    // the only four outcomes
    ensures r == Next || r == Redirect("/login", true) || r == Redirect("/login", false) || r == Redirect("/home", false)
    // the cookie is deleted exactly when a present token fails to decode or has expired
    ensures r == Redirect("/login", true) <==>
              !Bypassed(pathname) && HasToken(authToken) && !ValidToken(authToken, decode, nowMs)
    // a plain login redirect happens exactly for a tokenless visit to a protected path
    ensures r == Redirect("/login", false) <==>
              !Bypassed(pathname) && !HasToken(authToken) && pathname !in PublicRoutes
    // signed-in visitors are sent home from every public path except the root
    ensures r == Redirect("/home", false) <==>
              !Bypassed(pathname) && ValidToken(authToken, decode, nowMs)
              && pathname in PublicRoutes && pathname != "/"
    ensures r == Next <==>
              || Bypassed(pathname)
              || (!HasToken(authToken) && pathname in PublicRoutes)
              || (ValidToken(authToken, decode, nowMs) && (pathname !in PublicRoutes || pathname == "/"))
  {
    if Bypassed(pathname) then Next
    else if !HasToken(authToken) && pathname !in PublicRoutes then Redirect("/login", false)
    else if HasToken(authToken) then
      match decode(authToken.value)
      case None => Redirect("/login", true)
      case Some(decoded) =>
        if Expired(nowMs, decoded.exp) then Redirect("/login", true)
        else if pathname in PublicRoutes && pathname != "/" then Redirect("/home", false)
        else Next
    else Next
  }

  /** The expiry instant itself already counts as expired; one millisecond
      earlier the token is still good. */
  lemma ExpiryBoundary(pathname: string, token: string, decode: Decoder, decoded: JwtData)
    requires !Bypassed(pathname) && token != "" && decode(token) == Some(decoded)
    ensures Decide(pathname, Some(token), decode, decoded.exp * 1000) == Redirect("/login", true)
    ensures Decide(pathname, Some(token), decode, decoded.exp * 1000 - 1).Redirect? ==>
              !Decide(pathname, Some(token), decode, decoded.exp * 1000 - 1).clearAuthToken
  {
  }

  /** A signed-in request for `/home` is redirected to `/home` itself. */
  lemma HomeRedirectsToItself(token: string, decode: Decoder, nowMs: int)
    requires ValidToken(Some(token), decode, nowMs)
    ensures Decide("/home", Some(token), decode, nowMs) == Redirect("/home", false)
  {
    assert PublicRoutes[3] == "/home";
    var p := "/home";
    assert p == ['/', 'h', 'o', 'm', 'e'];
    DiffersAt(p, "/api", 1);
    assert !Bypassed(p);
  }

  /** Characters the regular-expression `.` does not match. */
  predicate LineTerminator(c: char) {
    c == '\n' || c == '\r' || c == '\U{2028}' || c == '\U{2029}'
  }

  /** The `favicon.ico` alternative, whose `.` is a wildcard. */
  predicate FaviconAhead(t: string) {
    |t| >= 11 && t[..7] == "favicon" && !LineTerminator(t[7]) && t[8..11] == "ico"
  }

  /** The negative lookahead `(?!api|_next/static|_next/image|favicon.ico|counseling)`. */
  predicate ExcludedAhead(t: string) {
    || StartsWith(t, "api")
    || StartsWith(t, "_next/static")
    || StartsWith(t, "_next/image")
    || FaviconAhead(t)
    || StartsWith(t, "counseling")
  }

  /** The pattern `/((?!api|_next/static|_next/image|favicon.ico|counseling).*)`
      matched against the whole path. */
  predicate MatcherAccepts(pathname: string)
    // accepted exactly: a slash path outside the five excluded prefixes with no line terminator
    ensures MatcherAccepts(pathname) <==>
              && |pathname| >= 1 && pathname[0] == '/' && !ExcludedByMatcher(pathname)
              && forall i :: 1 <= i < |pathname| ==> !LineTerminator(pathname[i])
  {
    ExcludedAheadOnPath(pathname);
    && |pathname| >= 1
    && pathname[0] == '/'
    && !ExcludedAhead(pathname[1..])
    && forall i :: 1 <= i < |pathname| ==> !LineTerminator(pathname[i])
  }

  /** The matcher's exclusions written on the whole path: the five
      alternatives of the lookahead, each right after the leading slash. */
  predicate ExcludedByMatcher(pathname: string) {
    || StartsWith(pathname, "/api")
    || StartsWith(pathname, "/_next/static")
    || StartsWith(pathname, "/_next/image")
    || StartsWith(pathname, "/counseling")
    || FaviconLike(pathname)
  }

  /** `/favicon?ico…`, where `?` is any character but a line terminator. */
  predicate FaviconLike(pathname: string) {
    |pathname| >= 12 && pathname[..8] == "/favicon" && !LineTerminator(pathname[8]) && pathname[9..12] == "ico"
  }

  /** A path's tail starts with `p` exactly when the path starts with `c` then `p`. */
  lemma TailStartsWith(s: string, c: char, p: string)
    requires |s| >= 1 && s[0] == c
    ensures StartsWith(s, [c] + p) <==> StartsWith(s[1..], p)
  {
    if StartsWith(s[1..], p) {
      assert s[..|p| + 1] == [c] + s[1..][..|p|];
    }
    if StartsWith(s, [c] + p) {
      assert s[1..][..|p|] == s[..|p| + 1][1..];
    }
  }

  /** The lookahead, read on the path after its leading slash, is the list of
      excluded path prefixes. */
  lemma ExcludedAheadOnPath(pathname: string)
    ensures |pathname| >= 1 && pathname[0] == '/' ==> (ExcludedAhead(pathname[1..]) <==> ExcludedByMatcher(pathname))
  {
    if |pathname| == 0 || pathname[0] != '/' {
      return;
    }
    var t := pathname[1..];
    assert "/api" == ['/'] + "api";
    assert "/_next/static" == ['/'] + "_next/static";
    assert "/_next/image" == ['/'] + "_next/image";
    assert "/counseling" == ['/'] + "counseling";
    TailStartsWith(pathname, '/', "api");
    TailStartsWith(pathname, '/', "_next/static");
    TailStartsWith(pathname, '/', "_next/image");
    TailStartsWith(pathname, '/', "counseling");
    FaviconAheadOnPath(pathname);
  }

  /** The favicon alternative, read on the path after its leading slash. */
  lemma FaviconAheadOnPath(pathname: string)
    requires |pathname| >= 1 && pathname[0] == '/'
    ensures FaviconAhead(pathname[1..]) <==> FaviconLike(pathname)
  {
    if |pathname| >= 12 {
      var t := pathname[1..];
      assert "/favicon" == ['/'] + "favicon";
      TailStartsWith(pathname, '/', "favicon");
      assert t[7] == pathname[8];
      assert t[8..11] == pathname[9..12] by {
        forall k | 0 <= k < 3
          ensures t[8..11][k] == pathname[9..12][k]
        {
          assert t[8 + k] == pathname[9 + k];
        }
      }
    }
  }

  /** Both asset trees lie under `/_next`. */
  lemma NextAssetPrefix(pathname: string)
    ensures StartsWith(pathname, "/_next/static") || StartsWith(pathname, "/_next/image") ==> StartsWith(pathname, "/_next")
  {
    if StartsWith(pathname, "/_next/static") || StartsWith(pathname, "/_next/image") {
      assert "/_next/static"[..6] == "/_next";
      assert "/_next/image"[..6] == "/_next";
      assert pathname[..6] == pathname[..|"/_next/image"|][..6];
    }
  }

  /** A request as it leaves the middleware layer: paths the matcher refuses
      never reach `Decide` and proceed unchanged. */
  function Gate(pathname: string, authToken: Option<string>, decode: Decoder, nowMs: int): (r: Response)
    // a path the matcher refuses, for whatever reason, passes through
    ensures !MatcherAccepts(pathname) ==> r == Next
    // in particular every alternative of the lookahead
    ensures ExcludedByMatcher(pathname) ==> r == Next
    // otherwise a slash path without line terminators gets the middleware's answer
    ensures && |pathname| >= 1 && pathname[0] == '/' && !ExcludedByMatcher(pathname)
            && (forall i :: 1 <= i < |pathname| ==> !LineTerminator(pathname[i]))
            ==> r == Decide(pathname, authToken, decode, nowMs)
    // the matcher changes the answer only for these paths
    ensures r != Decide(pathname, authToken, decode, nowMs) ==>
              || |pathname| == 0 || pathname[0] != '/'
              || StartsWith(pathname, "/counseling")
              || (FaviconLike(pathname) && '.' !in pathname)
              || (exists i :: 1 <= i < |pathname| && LineTerminator(pathname[i]))
  {
    if MatcherAccepts(pathname) then Decide(pathname, authToken, decode, nowMs) else Next
  }

  /** Paths under `/counseling`, even with an expired or broken token, are
      never redirected: the matcher skips them. */
  lemma CounselingIsNeverGated(rest: string, authToken: Option<string>, decode: Decoder, nowMs: int)
    ensures Gate("/counseling" + rest, authToken, decode, nowMs) == Next
  {
    var p := "/counseling" + rest;
    assert p[1..] == "counseling" + rest;
    StartsWithPrefix("counseling", rest);
  }

  /** A signed-in visit to `/counseling` itself passes: the middleware alone
      would send it home, but the matcher never calls it. */
  lemma SignedInCounselingPasses(token: string, decode: Decoder, nowMs: int)
    requires ValidToken(Some(token), decode, nowMs)
    ensures Decide("/counseling", Some(token), decode, nowMs) == Redirect("/home", false)
    ensures Gate("/counseling", Some(token), decode, nowMs) == Next
  {
    var p := "/counseling";
    assert PublicRoutes[4] == p;
    assert p == ['/', 'c', 'o', 'u', 'n', 's', 'e', 'l', 'i', 'n', 'g'];
    DiffersAt(p, "/_next", 1);
    DiffersAt(p, "/api", 1);
    DiffersAt(p, "/sw.js", 1);
    DiffersAt(p, "/manifest.json", 1);
    assert !Bypassed(p);
    assert p == p + "";
    StartsWithPrefix(p, "");
  }

  /** The wildcard in the favicon alternative also skips look-alike paths. */
  lemma FaviconWildcard(authToken: Option<string>, decode: Decoder, nowMs: int)
    ensures !MatcherAccepts("/favicon-ico")
    ensures Gate("/favicon-ico", authToken, decode, nowMs) == Next
  {
    assert "/favicon-ico"[1..] == "favicon-ico";
    assert FaviconAhead("favicon-ico");
  }

  /** A protected path with no token reaches the gate and is sent to login. */
  lemma ProtectedPathWithoutToken(nowMs: int, decode: Decoder)
    ensures Gate("/photo-capture", None, decode, nowMs) == Redirect("/login", false)
  {
    PhotoCaptureIsGated();
    PhotoCaptureIsProtected();
  }

  /** The matcher accepts `/photo-capture`. */
  lemma PhotoCaptureIsGated()
    ensures MatcherAccepts("/photo-capture")
  {
    var p := "/photo-capture";
    assert p == ['/', 'p', 'h', 'o', 't', 'o', '-', 'c', 'a', 'p', 't', 'u', 'r', 'e'];
    DiffersAt(p, "/api", 1);
    DiffersAt(p, "/_next/static", 1);
    DiffersAt(p, "/_next/image", 1);
    DiffersAt(p, "/counseling", 1);
    assert !FaviconLike(p) by { assert p[..8][1] == 'p'; }
  }

  /** `/photo-capture` is neither bypassed nor public. */
  lemma PhotoCaptureIsProtected()
    ensures !Bypassed("/photo-capture") && "/photo-capture" !in PublicRoutes
  {
    var p := "/photo-capture";
    assert p == ['/', 'p', 'h', 'o', 't', 'o', '-', 'c', 'a', 'p', 't', 'u', 'r', 'e'];
    DiffersAt(p, "/_next", 1);
    DiffersAt(p, "/api", 1);
    DiffersAt(p, "/sw.js", 1);
    DiffersAt(p, "/manifest.json", 1);
  }
}

=== FILE: photo_capture.dfy ===
/**
 The photo-capture page of src/app/photo-capture/page.tsx as a state machine.
 The page state is the `CameraState`, the captured image (a data URL, empty
 when there is none), the analysis result and the camera stream reference.
 Every handler is a pure transition; the browser's answers (permission
 status, `getUserMedia`, the canvas, the upload) are explicit inputs.
 */
module PhotoCapture {
  import opened Wrappers
  import opened JsString
  import opened Http

  datatype CameraState = Permission | Ready | Captured | Sending | Result

  datatype PhotoResponse = PhotoResponse(imageUrl: string, text: string)

  /** `streamRef.current`: no stream yet, a live stream, or one whose tracks
      have been stopped. */
  datatype StreamRef = NoStream | Live | Stopped

  datatype Page = Page(state: CameraState, capturedImage: string, photoResult: Option<PhotoResponse>, stream: StreamRef)

  /** `navigator.permissions` missing, its query throwing, or its answer. */
  datatype PermissionQuery = Unsupported | QueryFailed | Queried(status: PermissionStatus)

  datatype PermissionStatus = Granted | Denied | Prompt

  /** `getUserMedia` resolving with a stream or rejecting. */
  datatype CameraOutcome = Acquired | AcquireFailed

  const FallbackText: string := "사진 분석 결과: 아름다운 사진입니다! (API 연결 필요)"

  /** The result shown when the upload fails: the captured image itself. */
  function Fallback(capturedImage: string): (r: PhotoResponse)
    ensures r.imageUrl == capturedImage
  {
    PhotoResponse(capturedImage, FallbackText)
  }

  /** The state after the page mounts. */
  function Initial(): (p: Page)
    ensures p.state == Permission && p.capturedImage == "" && p.photoResult.None?
  {
    Page(Permission, "", None, NoStream)
  }

  /** `requestCameraPermission()`: ends `ready` whether or not the camera
      was acquired; never throws. */
  function RequestCameraPermission(p: Page, camera: CameraOutcome): (r: Page)
    ensures r.state == Ready
    ensures r.capturedImage == p.capturedImage && r.photoResult == p.photoResult
    ensures r.stream == if camera.Acquired? then Live else p.stream
  {
    match camera
    case Acquired => p.(state := Ready, stream := Live)
    case AcquireFailed => p.(state := Ready)
  }

  /** `checkCameraPermission()`: a granted camera is requested at once, and so
      it is when the permissions API is missing (that request cannot throw,
      so its catch is dead); every other answer stays on `permission`. */
  function CheckCameraPermission(p: Page, query: PermissionQuery, camera: CameraOutcome): (r: Page)
    ensures r.state == Ready <==> query == Unsupported || query == Queried(Granted)
    ensures r.state != Ready ==> r == p.(state := Permission)
    ensures r.state == Ready ==> r == RequestCameraPermission(p, camera)
  {
    match query
    case Unsupported => RequestCameraPermission(p, camera)
    case QueryFailed => p.(state := Permission)
    case Queried(Granted) => RequestCameraPermission(p, camera)
    case Queried(_) => p.(state := Permission)
  }

  /** `capturePhoto()`: with a video element, a canvas and a 2D context it
      stores the JPEG data URL, stops the stream and shows the capture;
      otherwise nothing happens. */
  function CapturePhoto(p: Page, hasVideo: bool, hasCanvas: bool, hasContext: bool, jpegDataUrl: string): (r: Page)
    ensures hasVideo && hasCanvas && hasContext ==>
              && r.state == Captured && r.capturedImage == jpegDataUrl
              && r.photoResult == p.photoResult
              && r.stream == (if p.stream.NoStream? then NoStream else Stopped)
    ensures !(hasVideo && hasCanvas && hasContext) ==> r == p
  {
    if hasVideo && hasCanvas && hasContext then
      p.(state := Captured, capturedImage := jpegDataUrl, stream := if p.stream.NoStream? then NoStream else Stopped)
    else p
  }

  /** `retakePhoto()`: drops the image, keeps the previous result. */
  function RetakePhoto(p: Page): (r: Page)
    ensures r.state == Permission && r.capturedImage == ""
    ensures r.photoResult == p.photoResult && r.stream == p.stream
  {
    p.(state := Permission, capturedImage := "")
  }

  /** The visible `sending` state `sendPhoto` enters before the upload. */
  function BeginSend(p: Page): (r: Page)
    ensures r.state == Sending && r.capturedImage == p.capturedImage && r.photoResult == p.photoResult
    ensures r == p.(state := Sending)
  {
    p.(state := Sending)
  }

  /** `sendPhoto()`: nothing without an image; otherwise `result`, with the
      server's answer on success and the fallback on any failure. */
  function SendPhoto(p: Page, upload: Reply<PhotoResponse>): (r: Page)
    ensures p.capturedImage == "" ==> r == p
    ensures p.capturedImage != "" ==>
              && r.state == Result
              && r.capturedImage == p.capturedImage && r.stream == p.stream
              && r.photoResult == Some(if upload.Ok? then upload.body else Fallback(p.capturedImage))
  {
    if p.capturedImage == "" then p
    else
      var sending := BeginSend(p);
      match upload
      case Ok(result) => sending.(state := Result, photoResult := Some(result))
      case _ => sending.(state := Result, photoResult := Some(Fallback(p.capturedImage)))
  }

  /** `takeNewPhoto()`: back to the initial state, the stream reference aside. */
  function TakeNewPhoto(p: Page): (r: Page)
    ensures r == Initial().(stream := p.stream)
  {
    p.(state := Permission, capturedImage := "", photoResult := None)
  }

  /** What `toDataURL` returns: never empty. */
  predicate IsDataUrl(s: string) {
    StartsWith(s, "data:")
  }

  /** The page shows a capture only with an image in hand, and a result only
      with a result to show. */
  predicate Consistent(p: Page) {
    && (p.state == Captured || p.state == Sending ==> p.capturedImage != "")
    && (p.state == Result ==> p.photoResult.Some?)
  }

  /** Every handler keeps the page consistent. */
  lemma HandlersPreserveConsistency(p: Page, query: PermissionQuery, camera: CameraOutcome,
                                    hasVideo: bool, hasCanvas: bool, hasContext: bool,
                                    jpegDataUrl: string, upload: Reply<PhotoResponse>)
    requires Consistent(p) && IsDataUrl(jpegDataUrl)
    ensures Consistent(Initial())
    ensures Consistent(CheckCameraPermission(p, query, camera))
    ensures Consistent(RequestCameraPermission(p, camera))
    ensures Consistent(CapturePhoto(p, hasVideo, hasCanvas, hasContext, jpegDataUrl))
    ensures Consistent(RetakePhoto(p))
    ensures p.capturedImage != "" ==> Consistent(BeginSend(p))
    ensures Consistent(SendPhoto(p, upload))
    ensures Consistent(TakeNewPhoto(p))
  {
  }

  /** A whole round: the page opens with the camera granted, a photo is
      taken, the upload fails, and the fallback shows the photo itself; a new
      photo then starts over. */
  lemma FailedUploadShowsCapturedPhoto(jpegDataUrl: string)
    requires IsDataUrl(jpegDataUrl)
    ensures var shown := CheckCameraPermission(Initial(), Queried(Granted), Acquired);
            var taken := CapturePhoto(shown, true, true, true, jpegDataUrl);
            var sent := SendPhoto(taken, NotOk);
            && shown.state == Ready && shown.stream == Live
            && taken.state == Captured && taken.stream == Stopped
            && sent.state == Result && sent.photoResult == Some(PhotoResponse(jpegDataUrl, FallbackText))
            && TakeNewPhoto(sent) == Initial().(stream := Stopped)
  {
  }
}
